=== FILE: README.md ===
# Associative memory graph of MaiMBot, modelled in Dafny

This project models the core of `src/plugins/memory_system/draw_memory.py`. That file has four parts:

- **`Memory_graph`**: an undirected networkx graph keyed by concept strings. Each node may carry a `memory_items` attribute holding the memory fragments stored under that concept.
  - Edges are created with `connect_dot` and fragments appended with `add_dot`.
  - `get_dot` and `dots` are lookups.
  - `get_related_item` does a two-layer recall: the topic's own fragments, then (only when `depth >= 2`) those of every neighbour.
- **`save_graph_to_db` / `load_graph_from_db`**: transcode the graph to and from two document collections: `graph_data.nodes`, one `{concept, memory_items}` document per node, and `graph_data.edges`, one `{source, target}` document per edge.
- **`LLMModel.generate_response`**: a chat-completion call with at most three attempts. It backs off by `15 * 2^retry` seconds, and rate-limit (429) responses and exceptions share one budget. It also builds the endpoint URL.
- **The node filter of `visualize_graph_lite`**: keeps only nodes with more than two memories and more than two edge ends.

Modules, one file each:

- `MemoryGraph` (`memory_graph.dfy`):
  - The graph is a node order plus a map from concept to `Node(items, nbrs)`. This makes networkx's insertion orders explicit, for both nodes and neighbours.
  - `Items` is `Missing | List(seq) | Single(value)`. The last two cover the legacy case where the attribute holds a single non-list value.
  - `Valid` is the shape networkx maintains: each node listed once, neighbour lists without duplicates, symmetric adjacency.
  - `Empty` is valid, and every operation preserves `Valid`.
- `GraphStore` (`graph_store.dfy`):
  - The store is modelled as the two document sequences.
  - Edge documents are produced in networkx `G.edges()` order: each node in turn reports its neighbours not visited before it.
- `LiteView` (`lite_view.dfy`): the filter, without any drawing.
- `LlmClient` (`llm_client.dfy`):
  - The HTTP session is replaced by a sequence of three per-attempt outcomes: `RateLimited`, `Failed(err)`, or `Ok(body)`.
  - The reply records the final `(content, reasoning)` pair, the waits that would have been slept, and the number of attempts made.
- `Wrappers` (`wrappers.dfy`): `Option`.

Behaviours of the code worth knowing, which the model keeps:

- **Save does not replace the previous snapshot.** The comment at line 190 of `draw_memory.py` says the existing graph data is cleared first. But the code deletes from the `graph_data` collection and inserts into the separate `graph_data.nodes` and `graph_data.edges` collections. `SaveAppending` models this, and it is logged under Findings.
- **A malformed first choice is retried.** Only a missing or empty `choices` gives the "no result" text. A first choice without `message` or `content` raises a `KeyError` inside the `try`, so it is retried like a network error (`MalformedChoiceIsRetried`, `MalformedExactlyRaises`).
- **New edge endpoints have no attribute.** `connect_dot` creates new endpoints with no `memory_items` attribute, unlike `add_dot`, which always creates a list.
- **A third 429 is still slept.** The waits are then 15, 30 and 60, with no attempt after the last wait (`AllRateLimited`).

## Model

| member | source | states |
|---|---|---|
| MemoryGraph.EmptyIsValid | src/plugins/memory_system/draw_memory.py:84-85 | a fresh graph has the networkx shape every operation preserves |
| MemoryGraph.ConnectDot | src/plugins/memory_system/draw_memory.py:88-89 | afterwards `{a, b}` is an edge in both directions, and the edges are exactly the old ones plus that pair; new endpoints are appended to the node order, `a` first, with no attribute; each endpoint is appended to the other's neighbour list unless already there; existing attributes and every other node are unchanged; validity is preserved |
| MemoryGraph.ConnectDotFresh | src/plugins/memory_system/draw_memory.py:88-89 | connecting two distinct new concepts makes each the other's only neighbour, with no attribute |
| MemoryGraph.ConnectedPair | src/plugins/memory_system/draw_memory.py:88-103 | connecting two distinct concepts in an empty graph and adding one fragment to each gives exactly those two nodes, each holding its one fragment and listing the other as its only neighbour |
| MemoryGraph.ConnectDotIdempotent | src/plugins/memory_system/draw_memory.py:88-89 | connecting the same pair again, as `(a, b)` or `(b, a)`, yields the identical graph |
| MemoryGraph.AddDot | src/plugins/memory_system/draw_memory.py:91-103 | the concept's items become the old fragments with `m` appended: `[m]` for an absent node or missing attribute, `[v, m]` for a legacy single value `v`; an existing concept keeps its place in the node order and its neighbours, a new one is appended with none; every other node and every edge is untouched; validity is preserved |
| MemoryGraph.AddDotAccumulates | src/plugins/memory_system/draw_memory.py:91-103 | two appends leave `[f1, f2]` on a new concept and the old fragments followed by `f1, f2` on an existing one |
| MemoryGraph.GetDot | src/plugins/memory_system/draw_memory.py:105-113 | returns the concept with its attribute exactly when it is a node, None otherwise |
| MemoryGraph.Dots | src/plugins/memory_system/draw_memory.py:161-164 | one entry per node in node order; in a valid graph each is the node paired with its attribute |
| MemoryGraph.Related | src/plugins/memory_system/draw_memory.py:115-152 | an absent topic gives `([], [])`; the first layer is the topic's fragments (a single value as one element, a missing attribute as none); below depth 2 the second layer is empty; from depth 2 it is the in-order concatenation of every neighbour's fragments, duplicates included, and a fragment is in it iff some neighbour holds it |
| MemoryGraph.Fragments | src/plugins/memory_system/draw_memory.py:130-135 | a list attribute is read as itself, a legacy single value as a one-element list, a missing attribute as nothing; `Held` applies this to every node visited in the second layer (lines 145-150) |
| MemoryGraph.Gather | src/plugins/memory_system/draw_memory.py:140-150 | no contract of its own: it is the second-layer loop extending the result by each neighbour's fragments in turn, and GatherConcatenates, GatherMembers, GatherAppend and GatherOne state what it yields |
| MemoryGraph.GatherMembers | src/plugins/memory_system/draw_memory.py:140-150 | a fragment is gathered from a concept list iff some listed node holds it |
| MemoryGraph.GatherAppend | src/plugins/memory_system/draw_memory.py:140-150 | gathering follows neighbour order: the fragments of two runs of neighbours are the first run's followed by the second's |
| MemoryGraph.GatherConcatenates | src/plugins/memory_system/draw_memory.py:140-150 | the second-layer loop yields exactly the concatenation of each listed concept's fragments in list order, repeats included: each listed concept contributes all of its fragments, so a fragment appears once for every time a listed concept holds it |
| MemoryGraph.GatherOne | src/plugins/memory_system/draw_memory.py:142-150 | visiting one concept yields its fragments, or nothing when it is not a node |
| MemoryGraph.DepthGating | src/plugins/memory_system/draw_memory.py:115-152 | for a topic whose only neighbour is `n`, depth 1 recalls the topic's own fragments with an empty second layer, and depth 2 adds exactly `n`'s fragments |
| MemoryGraph.RecallExample | src/plugins/memory_system/draw_memory.py:115-152 | with "A" holding "x" linked to "B" holding "y": depth 1 gives `(["x"], [])`, depth 2 gives `(["x"], ["y"])`, and an unknown topic gives `([], [])` |
| MemoryGraph.SelfLoopRecall | src/plugins/memory_system/draw_memory.py:123-150 | with a self-loop the topic is its own neighbour, so at depth 2 its fragments also appear in the second layer |
| GraphStore.Stored | src/plugins/memory_system/draw_memory.py:196 | the saved field is never missing; it shows the same fragments as the attribute and equals the attribute whenever one is present |
| GraphStore.NodeDocs | src/plugins/memory_system/draw_memory.py:193-198 | one node document per node in node order, carrying the node's stored field |
| GraphStore.FreshEdges | src/plugins/memory_system/draw_memory.py:200-205 | a node reports an edge to exactly those neighbours not visited before it |
| GraphStore.EdgeDocsFrom | src/plugins/memory_system/draw_memory.py:200 | no contract of its own: it is the `G.edges()` enumeration from one node on, and EdgeDocsFromSound, EdgeDocsFromComplete and EdgeDocsFromNoDup state what it yields |
| GraphStore.EdgeDocs | src/plugins/memory_system/draw_memory.py:200 | no contract of its own: it is the whole `G.edges()` enumeration, and EdgeDocsSound, EdgeDocsComplete, EdgeDocsConnect and EdgeDocsOnce state what it yields |
| GraphStore.EdgeDocsFromSound | src/plugins/memory_system/draw_memory.py:200-205 | every edge reported from the `i`-th node on comes from a node at or after position `i` and one of its neighbours not visited before it |
| GraphStore.EdgeDocsFromComplete | src/plugins/memory_system/draw_memory.py:200-205 | every pair of a node at or after position `i` and a neighbour not visited before it is reported |
| GraphStore.FreshEdgesNoDup | src/plugins/memory_system/draw_memory.py:200-205 | a node whose neighbour list has no repeats reports no edge twice |
| GraphStore.EdgeDocsFromNoDup | src/plugins/memory_system/draw_memory.py:200-205 | in a valid graph the enumeration from the `i`-th node on reports no edge twice |
| GraphStore.EdgeDocsOnce | src/plugins/memory_system/draw_memory.py:200-205 | in a valid graph no edge document repeats, and an edge between two distinct concepts is never written in both orientations: each edge is written exactly once |
| GraphStore.EdgeDocsSound | src/plugins/memory_system/draw_memory.py:200-205 | every edge document names an edge of the graph |
| GraphStore.EdgeDocsComplete | src/plugins/memory_system/draw_memory.py:200-205 | every edge of the graph is reported in one orientation or the other |
| GraphStore.EdgeDocsConnect | src/plugins/memory_system/draw_memory.py:200-205 | the edge documents join exactly the edges of the graph |
| GraphStore.SaveAppending | src/plugins/memory_system/draw_memory.py:189-205 | the store keeps its earlier documents and gains the graph's node and edge documents after them |
| GraphStore.Save | src/plugins/memory_system/draw_memory.py:189-205 | the store holds one node document per node in order, none with a missing field, and edge documents naming only edges of the graph, none of them twice |
| GraphStore.Loaded | src/plugins/memory_system/draw_memory.py:213-215 | the loaded attribute is always a list; it equals what a reader sees of the field, except that a falsy single value becomes `[]` |
| GraphStore.AddNode | src/plugins/memory_system/draw_memory.py:216 | a new concept is appended to the node order with no neighbours; an existing one only has its attribute replaced; edges are untouched and validity is preserved |
| GraphStore.Latest | src/plugins/memory_system/draw_memory.py:211-216 | the field the node loop leaves on a concept is found iff some document names the concept |
| GraphStore.LatestIsLast | src/plugins/memory_system/draw_memory.py:211-216 | a found field is that of a document for the concept that no later document for it follows: the last document wins |
| GraphStore.LoadNodes | src/plugins/memory_system/draw_memory.py:211-216 | the node loop, one `add_node` per document in store order, keeps the graph valid; LoadNodesLastWins states what it builds |
| GraphStore.LoadNodesLastWins | src/plugins/memory_system/draw_memory.py:211-216 | after the node loop the nodes are the documented concepts; each carries the coerced field of its last document; no edge appears |
| GraphStore.LoadEdges | src/plugins/memory_system/draw_memory.py:218-220 | the edge loop, one `add_edge` per document in store order, removes no node and keeps the graph valid; LoadEdgesNodes, LoadEdgesItems, LoadEdgesLinks and LoadEdgesOrder state what it builds |
| GraphStore.LoadEdgesNodes | src/plugins/memory_system/draw_memory.py:218-220 | the edge loop adds exactly the endpoints that were not nodes |
| GraphStore.LoadEdgesItems | src/plugins/memory_system/draw_memory.py:218-220 | the edge loop keeps every attribute; endpoints it creates have none |
| GraphStore.LoadEdgesLinks | src/plugins/memory_system/draw_memory.py:218-220 | afterwards the edges are the old ones plus exactly the documented pairs; duplicate or reversed documents add nothing |
| GraphStore.LoadEdgesOrder | src/plugins/memory_system/draw_memory.py:218-220 | when every endpoint is already a node, the node order and node set are unchanged |
| GraphStore.Load | src/plugins/memory_system/draw_memory.py:207-220 | loading any store yields a valid graph |
| GraphStore.LoadEffect | src/plugins/memory_system/draw_memory.py:207-220 | from any store the loaded nodes are the concepts named by a node or edge document; each takes the coerced field of its last node document, or no attribute when it appears only in edges; the edges are exactly the documented pairs |
| GraphStore.LoadNodeDocsPrefix | src/plugins/memory_system/draw_memory.py:193-216 | loading a graph's first `k` node documents rebuilds its first `k` nodes in order, with restored items and no neighbours |
| GraphStore.LoadNodeDocs | src/plugins/memory_system/draw_memory.py:193-216 | loading all of a graph's node documents rebuilds its node order and node set |
| GraphStore.SaveLoadRoundTrip | src/plugins/memory_system/draw_memory.py:189-220 | saving then loading gives the same node order, node set and edge set (as unordered pairs); item lists are the same, except that a missing attribute comes back as `[]` and a falsy single value is dropped; with the snapshot save `Save` this holds whatever the store held before, while the save as written gives the same store only when saving into an empty store (SaveAppendingIntoEmpty) |
| GraphStore.SaveAppendingIntoEmpty | src/plugins/memory_system/draw_memory.py:189-205 | into an empty store the save as written produces the same store as the snapshot save |
| GraphStore.SaveAppendingKeepsStaleSnapshot | src/plugins/memory_system/draw_memory.py:191-220 | after the save as written, every concept and edge of the earlier snapshot is loaded again |
| GraphStore.SaveAppendingResurrects | src/plugins/memory_system/draw_memory.py:191-220 | for any valid graphs `before` and `g` and a concept of `before` that `g` lacks: saving `before` and then `g` with the save as written loads that concept again, while the snapshot save does not |
| LiteView.MemoryCount | src/plugins/memory_system/draw_memory.py:353-354 | the memory count equals the number of fragments a save and a load keep |
| LiteView.Degree | src/plugins/memory_system/draw_memory.py:355 | the degree is the length of the neighbour list, one more exactly when the node has a self-loop |
| LiteView.DegreeCountsEdgeEnds | src/plugins/memory_system/draw_memory.py:355 | in a valid graph the degree is the number of distinct neighbours, plus one more for a self-loop |
| LiteView.LiteFilter | src/plugins/memory_system/draw_memory.py:351-359 | survivors are exactly the nodes with memory count > 2 and degree > 2 in the unfiltered graph; they keep their items and node order; an edge survives iff both endpoints do; validity is preserved |
| LiteView.LiteFilterDrops | src/plugins/memory_system/draw_memory.py:351-357 | a node is removed iff its memory count is at most 2 or its degree is at most 2 |
| LiteView.LiteGraph | src/plugins/memory_system/draw_memory.py:359-364 | nothing is drawn iff no node survives; otherwise the filtered copy is drawn |
| LlmClient.RStrip | src/plugins/memory_system/draw_memory.py:48 | the result is a prefix with no trailing `ch`, and everything cut off is `ch` |
| LlmClient.RStripUnique | src/plugins/memory_system/draw_memory.py:48 | any prefix with those properties is the stripped string |
| LlmClient.ChatUrl | src/plugins/memory_system/draw_memory.py:48 | the URL ends in `/chat/completions`; before that is a prefix of the base URL with no trailing `/`; only `/` characters were removed |
| LlmClient.ChatUrlTrailingSlash | src/plugins/memory_system/draw_memory.py:48 | an extra trailing slash on the base URL does not change the endpoint |
| LlmClient.ReadBody | src/plugins/memory_system/draw_memory.py:65-70 | no or empty `choices` is the "no result" answer; a first choice without `message` raises a `KeyError` naming `'message'`, one whose message lacks `content` names `'content'`; a first choice with content is answered with that content and its `reasoning_content`, or `""` |
| LlmClient.MalformedExactlyRaises | src/plugins/memory_system/draw_memory.py:66-72 | a decoded body leads to a retry exactly when it has a first choice lacking `message` or `content` |
| LlmClient.Interpret | src/plugins/memory_system/draw_memory.py:53-78 | only a 429 counts as throttled; a failed request raises its own error text; a decoded body is read as ReadBody reads it |
| LlmClient.Backoff | src/plugins/memory_system/draw_memory.py:58 | every wait is a whole multiple of the 15-second base wait and at least that long (also the wait at line 74) |
| LlmClient.BackoffDoubles | src/plugins/memory_system/draw_memory.py:58 | each backoff is twice the previous one, so consecutive waits strictly grow |
| LlmClient.Attempt | src/plugins/memory_system/draw_memory.py:53-80 | from attempt `retry` on: the k-th wait is `15 * 2^(retry+k)`; no earlier attempt answered; the result is fixed by the last attempt: its answer, the failure text of a raising third attempt, or the exhaustion text after a third 429 |
| LlmClient.Generate | src/plugins/memory_system/draw_memory.py:50-80 | 1 to 3 attempts; waits are 15, 30, 60, ... in order; attempts stop at the first answer; the content is that answer, or the failure text of the third attempt's error after waits [15, 30], or the exhaustion text after waits [15, 30, 60] |
| LlmClient.AllAttemptsRaise | src/plugins/memory_system/draw_memory.py:72-78 | three raising attempts give waits `[15, 30]` and `("请求失败: <err>", "")` for the last error |
| LlmClient.AllRateLimited | src/plugins/memory_system/draw_memory.py:53-80 | three 429s give waits `[15, 30, 60]` and the exhaustion text |
| LlmClient.NoChoicesStops | src/plugins/memory_system/draw_memory.py:66-70 | a body with missing or empty `choices` ends the call on that attempt with "没有返回结果" and no wait |
| LlmClient.FirstChoiceAnswers | src/plugins/memory_system/draw_memory.py:66-69 | a first choice with content is returned at once with no wait, paired with its `reasoning_content`, or `""` when that is absent |
| LlmClient.MalformedChoiceIsRetried | src/plugins/memory_system/draw_memory.py:63-78 | a choice without `message` is retried like an exception and ends with the `KeyError` text after waits `[15, 30]` |
| LlmClient.FailureSuspendsAtLeast45 | src/plugins/memory_system/draw_memory.py:72-76 | when no attempt answers, at least two waits are slept and the first two add up to 45 |

## Left out

- Drawing is not modelled: `visualize_graph`, the plotting in `visualize_graph_lite`, `spring_layout`, `write_gml` and the font setup are rendering and file output.
- Colour intensities are not modelled: they are floating-point divisions used only for drawing.
- The HTTP layer is not modelled: the aiohttp session, request headers and request body (model name, temperature, extra parameters), `asyncio.sleep`, `print` and environment loading are I/O. The transport is a sequence of outcomes and the sleeps a list of waits.
- `get_random_chat_from_db` and `store_memory` are not modelled: they are database queries and formatting around them.
- The `Database` singleton is not modelled; the store is a value passed in and returned.
- Store read and write errors are not modelled, and neither is a node document without a `concept` field or an edge document without `source` or `target` (each a `KeyError` on load, lines 216 and 220).
- Load, LoadNodesLastWins, SaveLoadRoundTrip: assume that an unsorted `find()` returns documents in insertion order. MongoDB returns natural order, which is not guaranteed to be insertion order. The node order after a load and which of several documents for one concept wins both depend on this assumption.
- A `choices` field that is not a list is not modelled; `Body` can only say that `choices` is absent or a list. For such a field, `null`, a number or a boolean makes `len()` raise a `TypeError` at line 66. An empty string or object fails the test at line 66, so line 70 returns the no-result text at once. A non-empty string or object passes line 66 and raises at line 67: a `TypeError` for a string, a `KeyError` with text `0` for an object. Every such raise is retried like any other exception. A first choice that is not an object, or a `message` that is JSON `null`, is not modelled either: either raises a `TypeError` at line 67, which is retried like the `KeyError` of a missing `message` but carries a different error text. Nor is a decoded body (line 65) that is not a JSON object: an array or string without `"choices"` gives the no-result text, while `null`, a number, a boolean, or an array or string containing `"choices"` raises a `TypeError` at line 66 or 67, which is retried.
- Related: takes `depth` as an explicit argument. The source's default of 1 is not modelled, and the one caller in `main` (line 253) uses that default, so it never asks for the second layer.
- `segment_text` is not modelled: it calls the jieba tokenizer, foreign code.
- `find_topic` and `topic_what` are not modelled: they are prompt templates with nothing to state.
- The interactive loop in `main` is not modelled.
- Fragments are strings. Values of other Python types (numbers, `None`, nested lists) in `memory_items` are not modelled. A falsy single value is represented by the empty string.
- A `base_url` of `None`, which raises before the loop, is not modelled. Neither is JSON `null` as a `content` or `reasoning_content` value.
- Generate: takes exactly one outcome per possible attempt (three). Outcomes after the attempt that ends the call are ignored.
- LiteFilter: the survivors keep the unfiltered graph's neighbour lists, filtered. `G.copy()` at line 348 rebuilds adjacency with `add_edges_from` in node order, so the copy's neighbour order can differ (add X, Y, Z, then connect (Y, Z), (X, Z), (X, Y): the graph lists Y's neighbours as Z, X and the copy as X, Z). Nothing modelled reads that order.
- SaveLoadRoundTrip: states edges as a set of unordered pairs. It does not state neighbour order, which a load rebuilds from the edge enumeration and does not in general restore.

## Findings

| source | as written | input that shows it | evidently intended | confidence | as-written member | corrected member |
|---|---|---|---|---|---|---|
| src/plugins/memory_system/draw_memory.py:191 | `delete_many({})` clears the `graph_data` collection, while the documents are inserted into `graph_data.nodes` and `graph_data.edges`, so every save appends to the previous snapshots | a store holding the snapshot of a graph with concept "old", then a save of a graph with only "new": the next load contains "old" again (GraphStore.SaveAppendingResurrects proves this for every such pair of graphs) | a save replaces the stored snapshot, so a load returns exactly the saved graph | medium, not executed | GraphStore.SaveAppending | GraphStore.Save |

=== FILE: graph_store.dfy ===
/** `save_graph_to_db` / `load_graph_from_db`: the memory graph transcoded to
    and from two document collections, `graph_data.nodes` holding one
    `{concept, memory_items}` document per node and `graph_data.edges`
    holding one `{source, target}` document per edge. The store is modelled
    as the two document sequences in insertion order. The model assumes
    that an unsorted `find()` returns documents in that order; MongoDB does
    not guarantee it, and the node order after a load and which of several
    documents for one concept wins both rest on it. */
module GraphStore {
  import opened Wrappers
  import opened MemoryGraph

  /** A node document; `memoryItems` is `Missing` when the document has no
      `memory_items` field. */
  datatype NodeDoc = NodeDoc(concept: Concept, memoryItems: Items)

  datatype EdgeDoc = EdgeDoc(source: Concept, target: Concept)

  datatype Store = Store(nodes: seq<NodeDoc>, edges: seq<EdgeDoc>)

  const EmptyStore: Store := Store([], [])

  /** The edge document records the pair `{u, v}` in either orientation. */
  predicate Joins(e: EdgeDoc, u: Concept, v: Concept) {
    (e.source == u && e.target == v) || (e.source == v && e.target == u)
  }

  // ---------------------------------------------------------------- saving

  /** The field written for a node: `get('memory_items', [])`, so a missing
      attribute is stored as an empty list and anything else as it is. */
  function Stored(it: Items): (r: Items)
    ensures r != Missing
    ensures Fragments(r) == Fragments(it)
    ensures it != Missing ==> r == it
  {
    if it.Missing? then List([]) else it
  }

  /** One node document per node, in node order. */
  function NodeDocs(g: Graph): (r: seq<NodeDoc>)
    ensures |r| == |g.order|
    ensures forall i | 0 <= i < |r| :: r[i] == NodeDoc(g.order[i], Stored(ItemsOf(g, g.order[i])))
  {
    seq(|g.order|, i requires 0 <= i < |g.order| => NodeDoc(g.order[i], Stored(ItemsOf(g, g.order[i]))))
  }

  /** The edges networkx reports while visiting node `n`: one per neighbour
      that is not among the nodes already visited. */
  function FreshEdges(n: Concept, nbrs: seq<Concept>, seen: seq<Concept>): (r: seq<EdgeDoc>)
    ensures forall e :: e in r <==> e.source == n && e.target in nbrs && e.target !in seen
  {
    if |nbrs| == 0 then []
    else
      var rest := FreshEdges(n, nbrs[1..], seen);
      assert forall x :: x in nbrs <==> x == nbrs[0] || x in nbrs[1..];
      if nbrs[0] in seen then rest else [EdgeDoc(n, nbrs[0])] + rest
  }

  /** Visiting the `j`-th node reports edge document `e`. */
  predicate ReportedAt(g: Graph, j: int, e: EdgeDoc) {
    && 0 <= j < |g.order|
    && e.source == g.order[j]
    && e.target in Neighbours(g, g.order[j])
    && e.target !in g.order[..j]
  }

  /** The `G.edges()` enumeration from the `i`-th node on: every node is
      visited in node order and reports its edges to nodes not visited
      before it, so every edge is reported at the earlier of its two
      endpoints and a self-loop once. */
  function EdgeDocsFrom(g: Graph, i: nat): seq<EdgeDoc>
    requires i <= |g.order|
    decreases |g.order| - i
  {
    if i == |g.order| then []
    else FreshEdges(g.order[i], Neighbours(g, g.order[i]), g.order[..i]) + EdgeDocsFrom(g, i + 1)
  }

  /** Every edge reported from the `i`-th node on comes from a visited node
      and a neighbour not visited before it. */
  lemma {:induction false} EdgeDocsFromSound(g: Graph, i: nat)
    requires i <= |g.order|
    ensures forall e | e in EdgeDocsFrom(g, i) :: exists j :: ReportedAt(g, j, e) && i <= j
    decreases |g.order| - i
  {
    if i < |g.order| {
      EdgeDocsFromSound(g, i + 1);
      var here := FreshEdges(g.order[i], Neighbours(g, g.order[i]), g.order[..i]);
      forall e | e in EdgeDocsFrom(g, i)
        ensures exists j :: ReportedAt(g, j, e) && i <= j
      {
        if e in here {
          assert ReportedAt(g, i, e);
        } else {
          assert e in EdgeDocsFrom(g, i + 1);
        }
      }
    }
  }

  /** Every pair of a node and a neighbour not visited before it, from the
      `i`-th node on, is reported. */
  lemma {:induction false} EdgeDocsFromComplete(g: Graph, i: nat)
    requires i <= |g.order|
    ensures forall j, v | i <= j < |g.order| && v in Neighbours(g, g.order[j]) && v !in g.order[..j] ::
      EdgeDoc(g.order[j], v) in EdgeDocsFrom(g, i)
    decreases |g.order| - i
  {
    if i < |g.order| {
      EdgeDocsFromComplete(g, i + 1);
      var here := FreshEdges(g.order[i], Neighbours(g, g.order[i]), g.order[..i]);
      forall j, v | i <= j < |g.order| && v in Neighbours(g, g.order[j]) && v !in g.order[..j]
        ensures EdgeDoc(g.order[j], v) in EdgeDocsFrom(g, i)
      {
        if j == i {
          assert EdgeDoc(g.order[j], v) in here;
        } else {
          assert EdgeDoc(g.order[j], v) in EdgeDocsFrom(g, i + 1);
        }
      }
    }
  }

  function EdgeDocs(g: Graph): seq<EdgeDoc> {
    EdgeDocsFrom(g, 0)
  }

  /** Every reported edge is an edge of the graph. */
  lemma EdgeDocsSound(g: Graph)
    requires Valid(g)
    ensures forall e | e in EdgeDocs(g) :: Linked(g, e.source, e.target)
  {
    EdgeDocsFromSound(g, 0);
    forall e | e in EdgeDocs(g)
      ensures Linked(g, e.source, e.target)
    {
      var j :| ReportedAt(g, j, e) && 0 <= j;
      assert g.order[j] in g.nodes;
    }
  }

  /** Every edge of the graph is reported, in one orientation or the other. */
  lemma EdgeDocsComplete(g: Graph, u: Concept, v: Concept)
    requires Valid(g) && Linked(g, u, v)
    ensures exists e | e in EdgeDocs(g) :: Joins(e, u, v)
  {
    EdgeDocsFromComplete(g, 0);
    assert u in g.order && v in g.order;
    var i :| 0 <= i < |g.order| && g.order[i] == u;
    var j :| 0 <= j < |g.order| && g.order[j] == v;
    if i <= j {
      assert v !in g.order[..i];
      assert EdgeDoc(u, v) in EdgeDocs(g);
      assert Joins(EdgeDoc(u, v), u, v);
    } else {
      assert Linked(g, v, u);
      assert u !in g.order[..j];
      assert EdgeDoc(v, u) in EdgeDocs(g);
      assert Joins(EdgeDoc(v, u), u, v);
    }
  }

  /** Visiting one node reports each fresh neighbour once. */
  lemma {:induction false} FreshEdgesNoDup(n: Concept, nbrs: seq<Concept>, seen: seq<Concept>)
    requires NoDup(nbrs)
    ensures NoDup(FreshEdges(n, nbrs, seen))
  {
    if |nbrs| > 0 {
      FreshEdgesNoDup(n, nbrs[1..], seen);
      assert nbrs[0] !in nbrs[1..];
      var rest := FreshEdges(n, nbrs[1..], seen);
      if nbrs[0] !in seen {
        NoDupConcat([EdgeDoc(n, nbrs[0])], rest);
      }
    }
  }

  lemma NoDupConcat<T>(a: seq<T>, b: seq<T>)
    requires NoDup(a) && NoDup(b)
    requires forall x | x in a :: x !in b
    ensures NoDup(a + b)
  {
    forall i, j | 0 <= i < j < |a + b|
      ensures (a + b)[i] != (a + b)[j]
    {
      if i < |a| && |a| <= j {
        assert (a + b)[i] in a && (a + b)[j] in b;
      }
    }
  }

  /** The enumeration from the `i`-th node on reports no edge twice: each
      visit reports distinct neighbours, and later visits report from other
      nodes. */
  lemma {:induction false} EdgeDocsFromNoDup(g: Graph, i: nat)
    requires Valid(g) && i <= |g.order|
    ensures NoDup(EdgeDocsFrom(g, i))
    decreases |g.order| - i
  {
    if i < |g.order| {
      var n := g.order[i];
      assert n in g.nodes;
      var here := FreshEdges(n, Neighbours(g, n), g.order[..i]);
      FreshEdgesNoDup(n, Neighbours(g, n), g.order[..i]);
      EdgeDocsFromNoDup(g, i + 1);
      EdgeDocsFromSound(g, i + 1);
      forall e | e in EdgeDocsFrom(g, i + 1)
        ensures e.source != n
      {
        var j :| ReportedAt(g, j, e) && i + 1 <= j;
        assert e.source == g.order[j];
      }
      NoDupConcat(here, EdgeDocsFrom(g, i + 1));
    }
  }

  /** `G.edges()` reports every edge exactly once: no document repeats, and
      an edge between two distinct concepts is never written in both
      orientations. */
  lemma EdgeDocsOnce(g: Graph)
    requires Valid(g)
    ensures NoDup(EdgeDocs(g))
    ensures forall e | e in EdgeDocs(g) && EdgeDoc(e.target, e.source) in EdgeDocs(g) :: e.source == e.target
  {
    EdgeDocsFromNoDup(g, 0);
    EdgeDocsFromSound(g, 0);
    forall e | e in EdgeDocs(g) && EdgeDoc(e.target, e.source) in EdgeDocs(g)
      ensures e.source == e.target
    {
      var f := EdgeDoc(e.target, e.source);
      var j :| ReportedAt(g, j, e) && 0 <= j;
      var k :| ReportedAt(g, k, f) && 0 <= k;
      NotVisitedBefore(g.order, j, k);
      NotVisitedBefore(g.order, k, j);
    }
  }

  /** An element missing from the first `k` entries sits at index `k` or
      later. */
  lemma NotVisitedBefore<T>(s: seq<T>, j: int, k: int)
    requires 0 <= j < |s| && 0 <= k <= |s| && s[j] !in s[..k]
    ensures k <= j
  {
  }

  /** `save_graph_to_db` as written: the `delete_many` targets the
      `graph_data` collection while the documents go to `graph_data.nodes`
      and `graph_data.edges`, so the new documents are appended after
      whatever an earlier save left there. */
  function SaveAppending(g: Graph, s: Store): (r: Store)
    ensures |r.nodes| == |s.nodes| + |g.order| && |r.edges| == |s.edges| + |EdgeDocs(g)|
    ensures r.nodes[..|s.nodes|] == s.nodes && r.nodes[|s.nodes|..] == NodeDocs(g)
    ensures r.edges[..|s.edges|] == s.edges && r.edges[|s.edges|..] == EdgeDocs(g)
  {
    Store(s.nodes + NodeDocs(g), s.edges + EdgeDocs(g))
  }

  /** `save_graph_to_db` as evidently intended: the previous snapshot is
      cleared and replaced by the graph's documents. */
  function Save(g: Graph, s: Store): (r: Store)
    ensures |r.nodes| == |g.order|
    ensures forall i | 0 <= i < |r.nodes| :: r.nodes[i].concept == g.order[i] && r.nodes[i].memoryItems != Missing
    ensures Valid(g) ==> forall e | e in r.edges :: Linked(g, e.source, e.target)
    ensures Valid(g) ==> NoDup(r.edges)
  {
    var r := Store(NodeDocs(g), EdgeDocs(g));
    assert Valid(g) ==> forall e | e in r.edges :: Linked(g, e.source, e.target) by {
      if Valid(g) { EdgeDocsSound(g); }
    }
    assert Valid(g) ==> NoDup(r.edges) by {
      if Valid(g) { EdgeDocsOnce(g); }
    }
    r
  }

  // --------------------------------------------------------------- loading

  /** A legacy single value that Python treats as false. */
  predicate FalsySingle(it: Items) {
    it.Single? && !Truthy(it.value)
  }

  /** The coercion applied to a stored field: a list is kept, a non-list
      value `v` becomes `[v]` when truthy and `[]` when falsy, and a missing
      field becomes `[]`. It agrees with what a reader sees except that a
      falsy single value is dropped. */
  function Loaded(field: Items): (r: Items)
    ensures r.List?
    ensures FalsySingle(field) ==> r.fragments == []
    ensures !FalsySingle(field) ==> r.fragments == Fragments(field)
  {
    match field
    case Missing => List([])
    case List(xs) => List(xs)
    case Single(v) => List(if Truthy(v) then [v] else [])
  }

  /** `G.add_node(c, memory_items=it)`: a new node goes to the end of the
      node order with no neighbours; an existing one only has its attribute
      replaced. */
  function AddNode(g: Graph, c: Concept, it: Items): (r: Graph)
    ensures r.nodes.Keys == g.nodes.Keys + {c}
    ensures r.nodes[c] == Node(it, Neighbours(g, c))
    ensures forall d | d in g.nodes && d != c :: r.nodes[d] == g.nodes[d]
    ensures c in g.nodes ==> r.order == g.order
    ensures c !in g.nodes ==> r.order == g.order + [c]
    ensures forall x, y :: Linked(r, x, y) <==> Linked(g, x, y)
    ensures Valid(g) ==> Valid(r)
  {
    if c in g.nodes then
      Graph(g.order, g.nodes[c := g.nodes[c].(items := it)])
    else
      var r := Graph(g.order + [c], g.nodes[c := Node(it, [])]);
      assert Valid(g) ==> Valid(r) by {
        if Valid(g) {
          assert forall d :: d in r.nodes <==> d in r.order;
        }
      }
      r
  }

  /** The field of the last document for `c`, if any. */
  function Latest(docs: seq<NodeDoc>, c: Concept): (r: Option<Items>)
    ensures r.Some? <==> exists i :: 0 <= i < |docs| && docs[i].concept == c
  {
    if |docs| == 0 then None
    else if docs[|docs| - 1].concept == c then Some(docs[|docs| - 1].memoryItems)
    else
      var r := Latest(docs[..|docs| - 1], c);
      assert forall i | 0 <= i < |docs| - 1 :: docs[..|docs| - 1][i] == docs[i];
      r
  }

  /** A found field is that of the last document for `c`: no later
      document names `c`. */
  lemma {:induction false} LatestIsLast(docs: seq<NodeDoc>, c: Concept)
    ensures Latest(docs, c).Some? ==>
      exists i :: && 0 <= i < |docs| && docs[i].concept == c && Latest(docs, c).value == docs[i].memoryItems
                  && forall j | i < j < |docs| :: docs[j].concept != c
    decreases |docs|
  {
    if |docs| > 0 && docs[|docs| - 1].concept != c {
      var front := docs[..|docs| - 1];
      LatestIsLast(front, c);
      if Latest(front, c).Some? {
        var i :| && 0 <= i < |front| && front[i].concept == c && Latest(front, c).value == front[i].memoryItems
                 && forall j | i < j < |front| :: front[j].concept != c;
        assert docs[i] == front[i];
        assert forall j | i < j < |docs| :: docs[j].concept != c by {
          forall j | i < j < |docs|
            ensures docs[j].concept != c
          {
            if j < |front| {
              assert docs[j] == front[j];
            }
          }
        }
      }
    }
  }

  /** The node loop of `load_graph_from_db`: every document is added in
      turn, so for a concept with several documents the last one wins. */
  function LoadNodes(g: Graph, docs: seq<NodeDoc>): (r: Graph)
    ensures Valid(g) ==> Valid(r)
    decreases |docs|
  {
    if |docs| == 0 then g
    else
      var d := docs[|docs| - 1];
      AddNode(LoadNodes(g, docs[..|docs| - 1]), d.concept, Loaded(d.memoryItems))
  }

  /** What the node loop does with any documents, duplicates included: the
      documented concepts become nodes, each carrying the coerced field of
      its last document, and no edge appears. */
  lemma {:induction false} LoadNodesLastWins(g: Graph, docs: seq<NodeDoc>)
    ensures forall c :: c in LoadNodes(g, docs).nodes <==> c in g.nodes || Latest(docs, c).Some?
    ensures forall c | c in LoadNodes(g, docs).nodes && Latest(docs, c).Some? ::
      LoadNodes(g, docs).nodes[c].items == Loaded(Latest(docs, c).value)
    ensures forall c | c in g.nodes && Latest(docs, c).None? :: LoadNodes(g, docs).nodes[c].items == g.nodes[c].items
    ensures forall x, y :: Linked(LoadNodes(g, docs), x, y) <==> Linked(g, x, y)
    decreases |docs|
  {
    if |docs| > 0 {
      var front := docs[..|docs| - 1];
      var d := docs[|docs| - 1];
      LoadNodesLastWins(g, front);
      var h := LoadNodes(g, front);
      assert LoadNodes(g, docs) == AddNode(h, d.concept, Loaded(d.memoryItems));
      assert forall c | c != d.concept :: Latest(docs, c) == Latest(front, c);
    }
  }

  /** The edge loop of `load_graph_from_db`: every document is connected in
      turn. */
  function LoadEdges(g: Graph, docs: seq<EdgeDoc>): (r: Graph)
    ensures g.nodes.Keys <= r.nodes.Keys
    ensures Valid(g) ==> Valid(r)
    decreases |docs|
  {
    if |docs| == 0 then g
    else
      var d := docs[|docs| - 1];
      ConnectDot(LoadEdges(g, docs[..|docs| - 1]), d.source, d.target)
  }

  /** Some edge document names `c` as an endpoint. */
  predicate Mentions(docs: seq<EdgeDoc>, c: Concept) {
    exists i :: 0 <= i < |docs| && (docs[i].source == c || docs[i].target == c)
  }

  /** Some edge document joins `u` and `v`. */
  predicate Connects(docs: seq<EdgeDoc>, u: Concept, v: Concept) {
    exists i :: 0 <= i < |docs| && Joins(docs[i], u, v)
  }

  lemma MentionsLast(docs: seq<EdgeDoc>, c: Concept)
    requires |docs| > 0
    ensures Mentions(docs, c) <==> Mentions(docs[..|docs| - 1], c) || docs[|docs| - 1].source == c || docs[|docs| - 1].target == c
  {
    var front := docs[..|docs| - 1];
    if Mentions(front, c) {
      var i :| 0 <= i < |front| && (front[i].source == c || front[i].target == c);
      assert docs[i] == front[i];
    }
    if Mentions(docs, c) {
      var i :| 0 <= i < |docs| && (docs[i].source == c || docs[i].target == c);
      if i < |front| {
        assert front[i] == docs[i];
      }
    }
  }

  lemma ConnectsLast(docs: seq<EdgeDoc>, u: Concept, v: Concept)
    requires |docs| > 0
    ensures Connects(docs, u, v) <==> Connects(docs[..|docs| - 1], u, v) || Joins(docs[|docs| - 1], u, v)
  {
    var front := docs[..|docs| - 1];
    if Connects(front, u, v) {
      var i :| 0 <= i < |front| && Joins(front[i], u, v);
      assert docs[i] == front[i];
    }
    if Connects(docs, u, v) {
      var i :| 0 <= i < |docs| && Joins(docs[i], u, v);
      if i < |front| {
        assert front[i] == docs[i];
      }
    }
  }

  lemma {:induction false} LoadEdgesNode(g: Graph, docs: seq<EdgeDoc>, c: Concept)
    ensures c in LoadEdges(g, docs).nodes <==> c in g.nodes || Mentions(docs, c)
    decreases |docs|
  {
    if |docs| > 0 {
      var front := docs[..|docs| - 1];
      var d := docs[|docs| - 1];
      var h := LoadEdges(g, front);
      assert LoadEdges(g, docs) == ConnectDot(h, d.source, d.target);
      LoadEdgesNode(g, front, c);
      MentionsLast(docs, c);
    }
  }

  /** The edge loop creates exactly the endpoints that were not nodes yet. */
  lemma LoadEdgesNodes(g: Graph, docs: seq<EdgeDoc>)
    ensures forall c :: c in LoadEdges(g, docs).nodes <==> c in g.nodes || Mentions(docs, c)
  {
    forall c ensures c in LoadEdges(g, docs).nodes <==> c in g.nodes || Mentions(docs, c) {
      LoadEdgesNode(g, docs, c);
    }
  }

  lemma {:induction false} LoadEdgesItem(g: Graph, docs: seq<EdgeDoc>, c: Concept)
    requires c in LoadEdges(g, docs).nodes
    ensures c in g.nodes ==> LoadEdges(g, docs).nodes[c].items == g.nodes[c].items
    ensures c !in g.nodes ==> LoadEdges(g, docs).nodes[c].items == Missing
    decreases |docs|
  {
    if |docs| > 0 {
      var front := docs[..|docs| - 1];
      var d := docs[|docs| - 1];
      var h := LoadEdges(g, front);
      assert LoadEdges(g, docs) == ConnectDot(h, d.source, d.target);
      if c in h.nodes {
        LoadEdgesItem(g, front, c);
      }
    }
  }

  /** The edge loop leaves every attribute alone and gives the endpoints it
      creates no attribute. */
  lemma LoadEdgesItems(g: Graph, docs: seq<EdgeDoc>)
    ensures forall c | c in g.nodes :: LoadEdges(g, docs).nodes[c].items == g.nodes[c].items
    ensures forall c | c in LoadEdges(g, docs).nodes && c !in g.nodes :: LoadEdges(g, docs).nodes[c].items == Missing
  {
    forall c | c in LoadEdges(g, docs).nodes
      ensures c in g.nodes ==> LoadEdges(g, docs).nodes[c].items == g.nodes[c].items
      ensures c !in g.nodes ==> LoadEdges(g, docs).nodes[c].items == Missing
    {
      LoadEdgesItem(g, docs, c);
    }
  }

  lemma ConnectDotLink(h: Graph, a: Concept, b: Concept, u: Concept, v: Concept)
    ensures Linked(ConnectDot(h, a, b), u, v) <==> Linked(h, u, v) || Joins(EdgeDoc(a, b), u, v)
  {
  }

  lemma {:induction false} LoadEdgesLink(g: Graph, docs: seq<EdgeDoc>, u: Concept, v: Concept)
    ensures Linked(LoadEdges(g, docs), u, v) <==> Linked(g, u, v) || Connects(docs, u, v)
    decreases |docs|
  {
    if |docs| > 0 {
      var front := docs[..|docs| - 1];
      var d := docs[|docs| - 1];
      var h := LoadEdges(g, front);
      assert LoadEdges(g, docs) == ConnectDot(h, d.source, d.target);
      LoadEdgesLink(g, front, u, v);
      ConnectsLast(docs, u, v);
      ConnectDotLink(h, d.source, d.target, u, v);
    }
  }

  /** The edge loop adds exactly the documented pairs as edges. */
  lemma LoadEdgesLinks(g: Graph, docs: seq<EdgeDoc>)
    ensures forall u, v :: Linked(LoadEdges(g, docs), u, v) <==> Linked(g, u, v) || Connects(docs, u, v)
  {
    forall u, v ensures Linked(LoadEdges(g, docs), u, v) <==> Linked(g, u, v) || Connects(docs, u, v) {
      LoadEdgesLink(g, docs, u, v);
    }
  }

  /** When every endpoint is already a node, the edge loop keeps the node
      order. */
  lemma {:induction false} LoadEdgesOrder(g: Graph, docs: seq<EdgeDoc>)
    requires forall i | 0 <= i < |docs| :: docs[i].source in g.nodes && docs[i].target in g.nodes
    ensures LoadEdges(g, docs).order == g.order
    ensures LoadEdges(g, docs).nodes.Keys == g.nodes.Keys
    decreases |docs|
  {
    if |docs| > 0 {
      var front := docs[..|docs| - 1];
      assert forall i | 0 <= i < |front| :: front[i] == docs[i];
      LoadEdgesOrder(g, front);
    }
  }

  /** `load_graph_from_db`: the graph is cleared, then the node documents
      and the edge documents are replayed in order. */
  function Load(s: Store): (r: Graph)
    ensures Valid(r)
  {
    EmptyIsValid();
    LoadEdges(LoadNodes(Empty, s.nodes), s.edges)
  }

  /** What a load yields from any store, duplicates included: the concepts
      named by some node or edge document, each carrying the coerced field
      of its last node document (or no attribute when it only occurs in an
      edge document), and exactly the documented pairs as edges. */
  lemma LoadEffect(s: Store)
    ensures forall c :: c in Load(s).nodes <==> Latest(s.nodes, c).Some? || Mentions(s.edges, c)
    ensures forall c | c in Load(s).nodes && Latest(s.nodes, c).Some? :: Load(s).nodes[c].items == Loaded(Latest(s.nodes, c).value)
    ensures forall c | c in Load(s).nodes && Latest(s.nodes, c).None? :: Load(s).nodes[c].items == Missing
    ensures forall u, v :: Linked(Load(s), u, v) <==> Connects(s.edges, u, v)
  {
    var h := LoadNodes(Empty, s.nodes);
    LoadNodesLastWins(Empty, s.nodes);
    LoadEdgesNodes(h, s.edges);
    LoadEdgesItems(h, s.edges);
    LoadEdgesLinks(h, s.edges);
  }

  // ------------------------------------------------------------ round trip

  /** `h` holds exactly the first `k` nodes of `g`, in order, each with its
      restored attribute and no neighbours. */
  ghost predicate RebuiltPrefix(g: Graph, h: Graph, k: nat) {
    && k <= |g.order|
    && h.order == g.order[..k]
    && (forall c :: c in h.nodes <==> c in g.order[..k])
    && (forall c | c in h.nodes :: h.nodes[c] == Node(Loaded(Stored(ItemsOf(g, c))), []))
  }

  lemma RebuiltPrefixStep(g: Graph, h: Graph, k: nat)
    requires Valid(g) && k < |g.order| && RebuiltPrefix(g, h, k)
    ensures RebuiltPrefix(g, AddNode(h, g.order[k], Loaded(Stored(ItemsOf(g, g.order[k])))), k + 1)
  {
    var c := g.order[k];
    assert c !in g.order[..k];
    assert g.order[..k + 1] == g.order[..k] + [c];
  }

  /** Loading the first `k` node documents of a graph into an empty graph
      rebuilds its first `k` nodes, in order, with no edges yet. */
  lemma {:induction false} LoadNodeDocsPrefix(g: Graph, k: nat)
    requires Valid(g) && k <= |g.order|
    ensures RebuiltPrefix(g, LoadNodes(Empty, NodeDocs(g)[..k]), k)
  {
    if k > 0 {
      LoadNodeDocsPrefix(g, k - 1);
      var h := LoadNodes(Empty, NodeDocs(g)[..k - 1]);
      LoadNodeDocsLast(g, k);
      RebuiltPrefixStep(g, h, k - 1);
    }
  }

  /** Loading `k` node documents is loading `k - 1` and adding the `k`-th. */
  lemma LoadNodeDocsLast(g: Graph, k: nat)
    requires 0 < k <= |g.order|
    ensures LoadNodes(Empty, NodeDocs(g)[..k])
      == AddNode(LoadNodes(Empty, NodeDocs(g)[..k - 1]), g.order[k - 1], Loaded(Stored(ItemsOf(g, g.order[k - 1]))))
  {
    var all := NodeDocs(g);
    var docs := all[..k];
    var d := docs[k - 1];
    assert d == NodeDoc(g.order[k - 1], Stored(ItemsOf(g, g.order[k - 1])));
    assert docs[..k - 1] == all[..k - 1];
    assert LoadNodes(Empty, docs) == AddNode(LoadNodes(Empty, docs[..k - 1]), d.concept, Loaded(d.memoryItems));
  }

  /** The node loop over a graph's node documents rebuilds its nodes. */
  lemma LoadNodeDocs(g: Graph)
    requires Valid(g)
    ensures LoadNodes(Empty, NodeDocs(g)).order == g.order
    ensures LoadNodes(Empty, NodeDocs(g)).nodes.Keys == g.nodes.Keys
    ensures forall c | c in g.nodes :: LoadNodes(Empty, NodeDocs(g)).nodes[c] == Node(Loaded(Stored(g.nodes[c].items)), [])
  {
    assert NodeDocs(g)[..|g.order|] == NodeDocs(g);
    assert g.order[..|g.order|] == g.order;
    LoadNodeDocsPrefix(g, |g.order|);
  }

  /** The edge documents of a graph join exactly its edges. */
  lemma EdgeDocsConnect(g: Graph, u: Concept, v: Concept)
    requires Valid(g)
    ensures Connects(EdgeDocs(g), u, v) <==> Linked(g, u, v)
  {
    if Connects(EdgeDocs(g), u, v) {
      ConnectedPairLinked(g, u, v);
    }
    if Linked(g, u, v) {
      LinkedPairConnected(g, u, v);
    }
  }

  lemma ConnectedPairLinked(g: Graph, u: Concept, v: Concept)
    requires Valid(g) && Connects(EdgeDocs(g), u, v)
    ensures Linked(g, u, v)
  {
    var edges := EdgeDocs(g);
    var i :| 0 <= i < |edges| && Joins(edges[i], u, v);
    EdgeDocLinked(g, i);
  }

  /** Each edge document joins two neighbours, in both orientations. */
  lemma EdgeDocLinked(g: Graph, i: int)
    requires Valid(g) && 0 <= i < |EdgeDocs(g)|
    ensures Linked(g, EdgeDocs(g)[i].source, EdgeDocs(g)[i].target)
    ensures Linked(g, EdgeDocs(g)[i].target, EdgeDocs(g)[i].source)
  {
    var e := EdgeDocs(g)[i];
    EdgeDocsFromSound(g, 0);
    assert e in EdgeDocsFrom(g, 0);
    var j :| ReportedAt(g, j, e) && 0 <= j;
    ReportedLinked(g, j, e);
  }

  lemma ReportedLinked(g: Graph, j: int, e: EdgeDoc)
    requires Valid(g) && ReportedAt(g, j, e)
    ensures Linked(g, e.source, e.target) && Linked(g, e.target, e.source)
  {
    assert g.order[j] in g.nodes;
  }

  lemma LinkedPairConnected(g: Graph, u: Concept, v: Concept)
    requires Valid(g) && Linked(g, u, v)
    ensures Connects(EdgeDocs(g), u, v)
  {
    var edges := EdgeDocs(g);
    EdgeDocsComplete(g, u, v);
    var e :| e in edges && Joins(e, u, v);
    var i :| 0 <= i < |edges| && edges[i] == e;
  }

  lemma EdgeDocsEndpoints(g: Graph)
    requires Valid(g)
    ensures forall i | 0 <= i < |EdgeDocs(g)| :: EdgeDocs(g)[i].source in g.nodes && EdgeDocs(g)[i].target in g.nodes
  {
    forall i | 0 <= i < |EdgeDocs(g)|
      ensures EdgeDocs(g)[i].source in g.nodes && EdgeDocs(g)[i].target in g.nodes
    {
      EdgeDocLinked(g, i);
    }
  }

  /** Saving a graph and loading the result gives back the same nodes in the
      same order, the same edges as unordered pairs, and the same fragment
      lists, except that a missing attribute comes back as an empty list and
      a falsy legacy single value is dropped. Neighbour order is not
      restored: it is rebuilt from the edge enumeration. The previous
      contents of the store play no part. */
  lemma SaveLoadRoundTrip(g: Graph, s: Store)
    requires Valid(g)
    ensures Load(Save(g, s)).order == g.order
    ensures Load(Save(g, s)).nodes.Keys == g.nodes.Keys
    ensures forall c | c in g.nodes :: Load(Save(g, s)).nodes[c].items.List?
    ensures forall c | c in g.nodes && !FalsySingle(g.nodes[c].items) ::
      Load(Save(g, s)).nodes[c].items.fragments == Fragments(g.nodes[c].items)
    ensures forall c | c in g.nodes && FalsySingle(g.nodes[c].items) :: Load(Save(g, s)).nodes[c].items.fragments == []
    ensures forall u, v :: Linked(Load(Save(g, s)), u, v) <==> Linked(g, u, v)
  {
    var h0 := LoadNodes(Empty, NodeDocs(g));
    assert Load(Save(g, s)) == LoadEdges(h0, EdgeDocs(g));
    RoundTripNodes(g);
    RoundTripLinks(g);
  }

  lemma RoundTripNodes(g: Graph)
    requires Valid(g)
    ensures var h := LoadEdges(LoadNodes(Empty, NodeDocs(g)), EdgeDocs(g));
      && h.order == g.order
      && h.nodes.Keys == g.nodes.Keys
      && forall c | c in g.nodes :: h.nodes[c].items == Loaded(Stored(g.nodes[c].items))
  {
    var h0 := LoadNodes(Empty, NodeDocs(g));
    var edges := EdgeDocs(g);
    LoadNodeDocs(g);
    EdgeDocsEndpoints(g);
    LoadEdgesOrder(h0, edges);
    LoadEdgesItems(h0, edges);
  }

  lemma RoundTripLinks(g: Graph)
    requires Valid(g)
    ensures forall u, v :: Linked(LoadEdges(LoadNodes(Empty, NodeDocs(g)), EdgeDocs(g)), u, v) <==> Linked(g, u, v)
  {
    var h0 := LoadNodes(Empty, NodeDocs(g));
    LoadNodeDocs(g);
    LoadEdgesLinks(h0, EdgeDocs(g));
    forall u, v
      ensures Linked(LoadEdges(h0, EdgeDocs(g)), u, v) <==> Linked(g, u, v)
    {
      EdgeDocsConnect(g, u, v);
    }
  }

  /** Into an empty store the appending save writes exactly what the
      snapshot save writes, so the round trip holds for it there. */
  lemma SaveAppendingIntoEmpty(g: Graph)
    ensures SaveAppending(g, EmptyStore) == Save(g, EmptyStore)
  {
  }

  /** Into a non-empty store the appending save keeps the earlier snapshot:
      every concept and every edge of it is loaded again, whether or not the
      saved graph still has it. */
  lemma SaveAppendingKeepsStaleSnapshot(g: Graph, s: Store)
    ensures forall i | 0 <= i < |s.nodes| :: s.nodes[i].concept in Load(SaveAppending(g, s)).nodes
    ensures forall i | 0 <= i < |s.edges| :: Linked(Load(SaveAppending(g, s)), s.edges[i].source, s.edges[i].target)
  {
    var t := SaveAppending(g, s);
    LoadEffect(t);
    forall i | 0 <= i < |s.nodes|
      ensures s.nodes[i].concept in Load(t).nodes
    {
      assert t.nodes[i] == s.nodes[i];
      assert Latest(t.nodes, s.nodes[i].concept).Some?;
    }
    forall i | 0 <= i < |s.edges|
      ensures Linked(Load(t), s.edges[i].source, s.edges[i].target)
    {
      assert t.edges[i] == s.edges[i];
      assert Joins(t.edges[i], s.edges[i].source, s.edges[i].target);
    }
  }

  /** A concept saved once and absent from the graph saved next comes back
      on load after the appending save; the snapshot save drops it. */
  lemma SaveAppendingResurrects(before: Graph, g: Graph, c: Concept)
    requires Valid(before) && Valid(g) && c in before.nodes && c !in g.nodes
    ensures c in Load(SaveAppending(g, SaveAppending(before, EmptyStore))).nodes
    ensures c !in Load(Save(g, SaveAppending(before, EmptyStore))).nodes
  {
    var s := SaveAppending(before, EmptyStore);
    assert c in before.order;
    var i :| 0 <= i < |before.order| && before.order[i] == c;
    assert s.nodes[i] == NodeDocs(before)[i];
    SaveAppendingKeepsStaleSnapshot(g, s);
    SaveLoadRoundTrip(g, s);
  }
}

=== FILE: lite_view.dfy ===
/** The node filter of `visualize_graph_lite`: before drawing, a copy of the
    graph keeps only the nodes with more than two memories and more than two
    edge ends, both measured on the unfiltered copy. The drawing itself is
    not modelled. */
module LiteView {
  import opened Wrappers
  import opened MemoryGraph
  import opened GraphStore

  /** `memory_count`: the length of a list, 1 or 0 for a truthy or falsy
      single value, 0 for a missing attribute. It counts exactly the
      fragments that survive a save and a load. */
  function MemoryCount(it: Items): (r: nat)
    ensures r == |Loaded(Stored(it)).fragments|
  {
    match it
    case List(xs) => |xs|
    case Single(v) => if Truthy(v) then 1 else 0
    case Missing => 0
  }

  /** `H.degree(n)`: the number of edge ends at `n`, where a self-loop
      contributes two. */
  function Degree(g: Graph, n: Concept): (r: nat)
    requires n in g.nodes
    ensures r == |g.nodes[n].nbrs| || r == |g.nodes[n].nbrs| + 1
    ensures r > |g.nodes[n].nbrs| <==> Linked(g, n, n)
  {
    var nbrs := g.nodes[n].nbrs;
    |nbrs| + (if n in nbrs then 1 else 0)
  }

  /** The concepts adjacent to `n`. */
  ghost function Adjacent(g: Graph, n: Concept): set<Concept>
    requires n in g.nodes
  {
    set v | v in g.nodes[n].nbrs
  }

  lemma {:induction false} DistinctCount(s: seq<Concept>)
    requires NoDup(s)
    ensures |set x | x in s| == |s|
  {
    if |s| > 0 {
      var front := s[..|s| - 1];
      var last := s[|s| - 1];
      assert NoDup(front);
      DistinctCount(front);
      assert last !in front;
      assert (set x | x in s) == (set x | x in front) + {last};
    }
  }

  /** In a valid graph the degree counts each distinct neighbour once and a
      self-loop twice. */
  lemma DegreeCountsEdgeEnds(g: Graph, n: Concept)
    requires Valid(g) && n in g.nodes
    ensures Degree(g, n) == |Adjacent(g, n)| + (if Linked(g, n, n) then 1 else 0)
  {
    DistinctCount(g.nodes[n].nbrs);
  }

  /** A node survives the filter. */
  predicate Shown(g: Graph, n: Concept) {
    n in g.nodes && MemoryCount(g.nodes[n].items) > 2 && Degree(g, n) > 2
  }

  /** The elements of `s` that are in `keep`, in their original order. */
  function Keep(s: seq<Concept>, keep: set<Concept>): (r: seq<Concept>)
    ensures forall x :: x in r <==> x in s && x in keep
    ensures NoDup(s) ==> NoDup(r)
    ensures |r| <= |s|
  {
    if |s| == 0 then []
    else
      var rest := Keep(s[1..], keep);
      assert forall x :: x in s <==> x == s[0] || x in s[1..];
      assert NoDup(s) ==> s[0] !in s[1..];
      if s[0] in keep then [s[0]] + rest else rest
  }

  /** `H.remove_nodes_from(nodes_to_remove)` on the copy: the surviving nodes
      keep their attribute, their position and their edges to other
      survivors; edges to removed nodes disappear. */
  function LiteFilter(g: Graph): (r: Graph)
    ensures forall n :: n in r.nodes <==> Shown(g, n)
    ensures forall n | n in r.nodes :: n in g.nodes && r.nodes[n].items == g.nodes[n].items
    ensures forall u, v :: Linked(r, u, v) <==> Linked(g, u, v) && Shown(g, u) && Shown(g, v)
    ensures r.order == Keep(g.order, r.nodes.Keys)
    ensures Valid(g) ==> Valid(r)
  {
    var kept := set n | n in g.nodes && Shown(g, n);
    var r := Graph(Keep(g.order, kept),
                   map n | n in kept :: Node(g.nodes[n].items, Keep(g.nodes[n].nbrs, kept)));
    assert r.nodes.Keys == kept;
    assert Valid(g) ==> Valid(r) by {
      if Valid(g) {
        assert forall c :: c in r.nodes <==> c in r.order;
        forall c, d | c in r.nodes && d in r.nodes[c].nbrs
          ensures d in r.nodes && c in r.nodes[d].nbrs
        {
          assert d in g.nodes[c].nbrs;
        }
      }
    }
    r
  }

  /** A node is dropped exactly when it has at most two memories or at most
      two edge ends in the unfiltered graph. */
  lemma LiteFilterDrops(g: Graph, n: Concept)
    requires n in g.nodes
    ensures n !in LiteFilter(g).nodes <==> MemoryCount(g.nodes[n].items) <= 2 || Degree(g, n) <= 2
  {
  }

  /** `visualize_graph_lite` stops before drawing when no node survives;
      otherwise it draws the filtered copy. */
  function LiteGraph(g: Graph): (r: Option<Graph>)
    ensures r.None? <==> forall n | n in g.nodes :: !Shown(g, n)
    ensures r.Some? ==> r.value == LiteFilter(g)
  {
    var h := LiteFilter(g);
    if h.nodes == map[] then None
    else Some(h)
  }
}

=== FILE: llm_client.dfy ===
/** `LLMModel.generate_response`: one chat-completion request with at most
    three attempts, exponential backoff and a shared budget for rate-limit
    responses and raised exceptions. The HTTP session and the sleeps are
    replaced by a sequence of per-attempt outcomes and the list of waits
    that would have been slept. */
module LlmClient {
  import opened Wrappers

  const MaxRetries: nat := 3
  const BaseWait: nat := 15
  const CompletionsPath: string := "/chat/completions"
  const NoResultText: string := "没有返回结果"
  const ExhaustedText: string := "达到最大重试次数，请求仍然失败"
  const FailurePrefix: string := "请求失败: "

  // ------------------------------------------------------------- endpoint

  /** `s.rstrip(ch)`: `s` without its trailing run of `ch`. */
  function RStrip(s: string, ch: char): (r: string)
    ensures r <= s
    ensures |r| == 0 || r[|r| - 1] != ch
    ensures forall i | |r| <= i < |s| :: s[i] == ch
  {
    if |s| > 0 && s[|s| - 1] == ch then RStrip(s[..|s| - 1], ch) else s
  }

  /** The three properties of `RStrip` pin its result down: no other prefix
      lacks a trailing `ch` while leaving only `ch` behind. */
  lemma RStripUnique(s: string, ch: char, p: string)
    requires p <= s
    requires |p| == 0 || p[|p| - 1] != ch
    requires forall i | |p| <= i < |s| :: s[i] == ch
    ensures p == RStrip(s, ch)
  {
  }

  /** The request URL: the base URL with every trailing `/` removed,
      followed by `/chat/completions`. */
  function ChatUrl(baseUrl: string): (r: string)
    ensures |r| >= |CompletionsPath| && r[|r| - |CompletionsPath|..] == CompletionsPath
    ensures r[..|r| - |CompletionsPath|] <= baseUrl
    ensures r[..|r| - |CompletionsPath|] == [] || r[|r| - |CompletionsPath| - 1] != '/'
    ensures forall i | |r| - |CompletionsPath| <= i < |baseUrl| :: baseUrl[i] == '/'
  {
    var p := RStrip(baseUrl, '/');
    var r := p + CompletionsPath;
    assert r[..|p|] == p;
    r
  }

  /** A base URL given with or without trailing slashes names the same
      endpoint. */
  lemma ChatUrlTrailingSlash(baseUrl: string)
    ensures ChatUrl(baseUrl + "/") == ChatUrl(baseUrl)
  {
    assert (baseUrl + "/")[..|baseUrl|] == baseUrl;
  }

  // ------------------------------------------------------------ responses

  datatype Message = Message(content: Option<string>, reasoning: Option<string>)

  datatype Choice = Choice(message: Option<Message>)

  /** A parsed JSON body; `choices` is None when the key is absent. */
  datatype Body = Body(choices: Option<seq<Choice>>)

  /** What one attempt produced: a 429 status, an exception raised by the
      session, the status check or the JSON decoder, or a decoded body. */
  datatype Outcome = RateLimited | Failed(error: string) | Ok(body: Body)

  /** What an attempt means to the retry loop. */
  datatype Step = Throttled | Raised(error: string) | Answered(content: string, reasoning: string)

  /** Reading a decoded body: no `choices` or an empty list is the "no
      result" answer; a first choice without `message` or `content` raises a
      `KeyError`, whose text is the quoted key; otherwise its content and its
      `reasoning_content`, or `""`, are the answer. */
  function ReadBody(body: Body): (r: Step)
    ensures !r.Throttled?
    ensures (body.choices.None? || |body.choices.value| == 0) ==> r == Answered(NoResultText, "")
    ensures body.choices.Some? && |body.choices.value| > 0 ==>
      var first := body.choices.value[0];
      && (first.message.None? ==> r == Raised("'message'"))
      && (first.message.Some? && first.message.value.content.None? ==> r == Raised("'content'"))
      && (first.message.Some? && first.message.value.content.Some? ==>
            r == Answered(first.message.value.content.value, first.message.value.reasoning.GetOr("")))
  {
    if body.choices.None? || |body.choices.value| == 0 then Answered(NoResultText, "")
    else
      match body.choices.value[0].message
      case None => Raised("'message'")
      case Some(m) =>
        match m.content
        case None => Raised("'content'")
        case Some(c) => Answered(c, m.reasoning.GetOr(""))
  }

  /** A decoded body leads to a retry exactly when it has a first choice
      lacking `message` or `content`; every other body ends the call. */
  lemma MalformedExactlyRaises(body: Body)
    ensures ReadBody(body).Raised? <==>
      && body.choices.Some? && |body.choices.value| > 0
      && (body.choices.value[0].message.None? || body.choices.value[0].message.value.content.None?)
  {
  }

  function Interpret(o: Outcome): (r: Step)
    ensures o.RateLimited? <==> r.Throttled?
    ensures o.Failed? ==> r == Raised(o.error)
    ensures o.Ok? ==> r == ReadBody(o.body)
  {
    match o
    case RateLimited => Throttled
    case Failed(e) => Raised(e)
    case Ok(body) => ReadBody(body)
  }

  // ---------------------------------------------------------------- retry

  function Pow2(k: nat): (r: nat)
    ensures r >= 1
  {
    if k == 0 then 1 else 2 * Pow2(k - 1)
  }

  /** The wait before the attempt after attempt `k`: a whole multiple of
      the base wait, never shorter than it. */
  function Backoff(k: nat): (r: nat)
    ensures r >= BaseWait
    ensures r % BaseWait == 0
  {
    BaseWait * Pow2(k)
  }

  /** Each backoff doubles the previous one, so consecutive waits strictly
      grow. */
  lemma BackoffDoubles(k: nat)
    ensures Backoff(k + 1) == 2 * Backoff(k)
    ensures Backoff(k) < Backoff(k + 1)
  {
  }

  /** The final pair, the waits slept and the number of attempts made. */
  datatype Reply = Reply(content: string, reasoning: string, waits: seq<nat>, attempts: nat)

  /** The loop body from attempt `retry` on. */
  function Attempt(outcomes: seq<Outcome>, retry: nat): (r: Reply)
    requires |outcomes| == MaxRetries && retry <= MaxRetries
    ensures retry <= r.attempts <= MaxRetries
    ensures forall k | 0 <= k < |r.waits| :: r.waits[k] == Backoff(retry + k)
    ensures forall i | retry <= i < r.attempts - 1 :: !Interpret(outcomes[i]).Answered?
    ensures retry < MaxRetries ==> retry < r.attempts && match Interpret(outcomes[r.attempts - 1])
      case Answered(c, why) => r.content == c && r.reasoning == why && |r.waits| == r.attempts - 1 - retry
      case Raised(e) =>
        r.attempts == MaxRetries && r.content == FailurePrefix + e && r.reasoning == "" && |r.waits| == MaxRetries - 1 - retry
      case Throttled =>
        r.attempts == MaxRetries && r.content == ExhaustedText && r.reasoning == "" && |r.waits| == MaxRetries - retry
    decreases MaxRetries - retry
  {
    if retry == MaxRetries then Reply(ExhaustedText, "", [], retry)
    else
      match Interpret(outcomes[retry])
      case Throttled => Waited(retry, Attempt(outcomes, retry + 1))
      case Raised(e) =>
        if retry < MaxRetries - 1 then Waited(retry, Attempt(outcomes, retry + 1))
        else Reply(FailurePrefix + e, "", [], retry + 1)
      case Answered(c, why) => Reply(c, why, [], retry + 1)
  }

  /** The reply of the remaining attempts, preceded by the wait after
      attempt `retry`. */
  function Waited(retry: nat, rest: Reply): Reply {
    rest.(waits := [Backoff(retry)] + rest.waits)
  }

  /** `generate_response`. Attempts are made until one yields an answer or
      the third is reached; the reply is that answer, the failure text of a
      third attempt that raised, or the exhaustion text after a third 429.
      The waits are always 15, 30, 60, ... up to the number slept. */
  function Generate(outcomes: seq<Outcome>): (r: Reply)
    requires |outcomes| == MaxRetries
    ensures 1 <= r.attempts <= MaxRetries
    ensures forall k | 0 <= k < |r.waits| :: r.waits[k] == Backoff(k)
    ensures forall i | 0 <= i < r.attempts - 1 :: !Interpret(outcomes[i]).Answered?
    ensures match Interpret(outcomes[r.attempts - 1])
      case Answered(c, why) => r.content == c && r.reasoning == why && |r.waits| == r.attempts - 1
      case Raised(e) =>
        r.attempts == MaxRetries && r.content == FailurePrefix + e && r.reasoning == "" && |r.waits| == MaxRetries - 1
      case Throttled =>
        r.attempts == MaxRetries && r.content == ExhaustedText && r.reasoning == "" && |r.waits| == MaxRetries
  {
    Attempt(outcomes, 0)
  }

  /** Every attempt raising: two waits, 15 then 30, and the failure text
      of the last exception. */
  lemma AllAttemptsRaise(outcomes: seq<Outcome>)
    requires |outcomes| == MaxRetries
    requires forall i | 0 <= i < MaxRetries :: Interpret(outcomes[i]).Raised?
    ensures Generate(outcomes).waits == [15, 30]
    ensures Generate(outcomes).attempts == 3
    ensures Generate(outcomes).content == FailurePrefix + Interpret(outcomes[2]).error
    ensures Generate(outcomes).reasoning == ""
  {
    var r := Generate(outcomes);
    assert Interpret(outcomes[r.attempts - 1]).Raised?;
    assert Backoff(0) == 15 && Backoff(1) == 30;
  }

  /** Three 429 responses use the whole budget: three waits, the last of
      them slept before giving up. */
  lemma AllRateLimited()
    ensures Generate([RateLimited, RateLimited, RateLimited]).waits == [15, 30, 60]
    ensures Generate([RateLimited, RateLimited, RateLimited]).content == ExhaustedText
    ensures Generate([RateLimited, RateLimited, RateLimited]).reasoning == ""
  {
    assert Backoff(0) == 15 && Backoff(1) == 30 && Backoff(2) == 60;
  }

  /** A body without choices ends the call at once with the "no result"
      text, whatever later attempts would have returned. */
  lemma NoChoicesStops(outcomes: seq<Outcome>)
    requires |outcomes| == MaxRetries
    requires outcomes[0] == Ok(Body(None)) || outcomes[0] == Ok(Body(Some([])))
    ensures Generate(outcomes) == Reply(NoResultText, "", [], 1)
  {
  }

  /** A first choice with content is returned at once, with its
      `reasoning_content`, or `""` when that is absent. */
  lemma FirstChoiceAnswers(outcomes: seq<Outcome>, content: string, reasoning: Option<string>, rest: seq<Choice>)
    requires |outcomes| == MaxRetries
    requires outcomes[0] == Ok(Body(Some([Choice(Some(Message(Some(content), reasoning)))] + rest)))
    ensures Generate(outcomes) == Reply(content, reasoning.GetOr(""), [], 1)
  {
  }

  /** A first choice without a `message` raises a `KeyError` inside the
      retry loop, so it is retried like a network error rather than
      treated as "no result". */
  lemma MalformedChoiceIsRetried()
    ensures var bad := Ok(Body(Some([Choice(None)])));
      && Generate([bad, bad, bad]).content == FailurePrefix + "'message'"
      && Generate([bad, bad, bad]).waits == [15, 30]
  {
    var bad := Ok(Body(Some([Choice(None)])));
    AllAttemptsRaise([bad, bad, bad]);
  }

  /** When every attempt fails the waits add up to at least 15 + 30. */
  lemma FailureSuspendsAtLeast45(outcomes: seq<Outcome>)
    requires |outcomes| == MaxRetries
    requires forall i | 0 <= i < MaxRetries :: !Interpret(outcomes[i]).Answered?
    ensures |Generate(outcomes).waits| >= 2
    ensures Generate(outcomes).waits[0] + Generate(outcomes).waits[1] == 45
  {
    var r := Generate(outcomes);
    assert !Interpret(outcomes[r.attempts - 1]).Answered?;
    assert Backoff(0) == 15 && Backoff(1) == 30;
  }
}

=== FILE: memory_graph.dfy ===
/** The associative memory graph of `Memory_graph`: an undirected networkx
    graph keyed by concept strings whose nodes may carry a `memory_items`
    attribute.

    networkx keeps a dictionary of nodes and, per node, a dictionary of
    neighbours; both iterate in insertion order. The model makes both
    orders explicit: `order` lists the concepts in the order they were first
    added and each node lists its neighbours in the order the edges were
    first added. */
module MemoryGraph {
  import opened Wrappers

  type Concept = string
  type Fragment = string

  /** The `memory_items` attribute of a node. It is normally a list of
      fragments; legacy data may hold a single non-list value instead, or no
      attribute at all. */
  datatype Items = Missing | List(fragments: seq<Fragment>) | Single(value: Fragment)

  datatype Node = Node(items: Items, nbrs: seq<Concept>)

  datatype Graph = Graph(order: seq<Concept>, nodes: map<Concept, Node>)

  /** `nx.Graph()`, and the state `G.clear()` leaves behind. */
  const Empty: Graph := Graph([], map[])

  predicate NoDup<T(==)>(s: seq<T>) {
    forall i, j :: 0 <= i < j < |s| ==> s[i] != s[j]
  }

  /** The shape networkx maintains for every graph: the node order lists each
      node exactly once, neighbour lists hold no duplicates and only nodes,
      and adjacency is symmetric (a self-loop lists the node as its own
      neighbour once). */
  ghost predicate Valid(g: Graph) {
    && NoDup(g.order)
    && (forall c :: c in g.nodes <==> c in g.order)
    && (forall c | c in g.nodes :: NoDup(g.nodes[c].nbrs))
    && (forall c, d | c in g.nodes && d in g.nodes[c].nbrs :: d in g.nodes && c in g.nodes[d].nbrs)
  }

  /** `v in G.adj[u]`: the two concepts are joined by an edge. */
  predicate Linked(g: Graph, u: Concept, v: Concept) {
    u in g.nodes && v in g.nodes[u].nbrs
  }

  /** The neighbours of `c` in insertion order, none when it is not a node. */
  function Neighbours(g: Graph, c: Concept): seq<Concept> {
    if c in g.nodes then g.nodes[c].nbrs else []
  }

  /** Python truthiness of a single stored value. */
  predicate Truthy(v: Fragment) {
    v != ""
  }

  /** The fragments a reader sees in an attribute: the list itself, a legacy
      single value as a one-element list, nothing when the attribute is
      missing. This is how `get_related_item` reads items and how `add_dot`
      wraps a legacy value before appending. */
  function Fragments(it: Items): (r: seq<Fragment>)
    ensures it.List? ==> r == it.fragments
    ensures it.Single? ==> r == [it.value]
    ensures it.Missing? ==> r == []
  {
    match it
    case Missing => []
    case List(xs) => xs
    case Single(v) => [v]
  }

  lemma EmptyIsValid()
    ensures Valid(Empty)
  {
  }

  /** Creates `c` with no attribute and no neighbours unless it is a node
      already (what `add_edge` does for each endpoint). */
  function Touch(g: Graph, c: Concept): (r: Graph)
    ensures c in r.nodes
    ensures c in g.nodes ==> r == g
    ensures c !in g.nodes ==> r.order == g.order + [c] && r.nodes == g.nodes[c := Node(Missing, [])]
    ensures c !in g.nodes ==> r.nodes[c] == Node(Missing, [])
    ensures r.nodes.Keys == g.nodes.Keys + {c}
    ensures forall d | d in g.nodes :: r.nodes[d] == g.nodes[d]
    ensures forall x, y :: Linked(r, x, y) <==> Linked(g, x, y)
    ensures Valid(g) ==> Valid(r)
  {
    if c in g.nodes then g
    else
      var r := Graph(g.order + [c], g.nodes[c := Node(Missing, [])]);
      assert Valid(g) ==> Valid(r) by {
        if Valid(g) {
          assert forall d :: d in r.nodes <==> d in r.order;
        }
      }
      r
  }

  /** Records `v` as a neighbour of `u` unless it already is one; an existing
      neighbour keeps its position (a dict update of an existing key). */
  function Link(g: Graph, u: Concept, v: Concept): (r: Graph)
    requires u in g.nodes
    ensures r.order == g.order && r.nodes.Keys == g.nodes.Keys
    ensures forall c | c in g.nodes :: r.nodes[c].items == g.nodes[c].items
    ensures forall c | c in g.nodes :: g.nodes[c].nbrs <= r.nodes[c].nbrs
    ensures forall c | c in g.nodes && c != u :: r.nodes[c] == g.nodes[c]
    ensures forall c | c in g.nodes && NoDup(g.nodes[c].nbrs) :: NoDup(r.nodes[c].nbrs)
    ensures forall x, y :: Linked(r, x, y) <==> Linked(g, x, y) || (x == u && y == v)
  {
    var n := g.nodes[u];
    if v in n.nbrs then g else Graph(g.order, g.nodes[u := n.(nbrs := n.nbrs + [v])])
  }

  /** `G.add_edge(a, b)` step by step: create missing endpoints, then record
      each endpoint as a neighbour of the other. */
  function Joined(g: Graph, a: Concept, b: Concept): Graph {
    var g1 := Touch(Touch(g, a), b);
    Link(Link(g1, a, b), b, a)
  }

  /** `add_edge` adds the missing endpoints with no attribute and leaves
      every existing attribute alone. */
  lemma JoinedNodes(g: Graph, a: Concept, b: Concept)
    ensures Joined(g, a, b).nodes.Keys == g.nodes.Keys + {a, b}
    ensures forall c | c in g.nodes :: Joined(g, a, b).nodes[c].items == g.nodes[c].items
    ensures a !in g.nodes ==> Joined(g, a, b).nodes[a].items == Missing
    ensures b !in g.nodes ==> Joined(g, a, b).nodes[b].items == Missing
  {
  }

  /** `add_edge` appends the new endpoints to the node order, `a` first. */
  lemma JoinedOrder(g: Graph, a: Concept, b: Concept)
    ensures Joined(g, a, b).order == g.order + (if a in g.nodes then [] else [a]) + (if b in g.nodes || b == a then [] else [b])
  {
  }

  /** `add_edge` appends `b` to the neighbours of `a` unless it is there
      already. */
  lemma JoinedFirstEnd(g: Graph, a: Concept, b: Concept)
    ensures Joined(g, a, b).nodes[a].nbrs == Neighbours(g, a) + (if b in Neighbours(g, a) then [] else [b])
  {
  }

  /** And `a` to the neighbours of a distinct `b` unless it is there already. */
  lemma JoinedSecondEnd(g: Graph, a: Concept, b: Concept)
    ensures a != b ==> Joined(g, a, b).nodes[b].nbrs == Neighbours(g, b) + (if a in Neighbours(g, b) then [] else [a])
  {
  }

  /** Every other node is left as it was. */
  lemma JoinedOthers(g: Graph, a: Concept, b: Concept)
    ensures forall c | c in g.nodes && c != a && c != b :: Joined(g, a, b).nodes[c] == g.nodes[c]
  {
  }

  /** `add_edge` adds exactly the pair, in both orientations. */
  lemma JoinedLinks(g: Graph, a: Concept, b: Concept)
    ensures forall u, v :: Linked(Joined(g, a, b), u, v) <==> Linked(g, u, v) || (u == a && v == b) || (u == b && v == a)
  {
  }

  /** `add_edge` keeps the networkx shape. */
  lemma JoinedValid(g: Graph, a: Concept, b: Concept)
    ensures Valid(g) ==> Valid(Joined(g, a, b))
  {
    LinkBothValid(Touch(Touch(g, a), b), a, b);
  }

  /** `connect_dot(a, b)`, that is `G.add_edge(a, b)`. */
  function ConnectDot(g: Graph, a: Concept, b: Concept): (r: Graph)
    ensures Linked(r, a, b) && Linked(r, b, a)
    ensures r.nodes.Keys == g.nodes.Keys + {a, b}
    ensures forall c | c in g.nodes :: r.nodes[c].items == g.nodes[c].items
    ensures a !in g.nodes ==> r.nodes[a].items == Missing
    ensures b !in g.nodes ==> r.nodes[b].items == Missing
    ensures forall u, v :: Linked(r, u, v) <==> Linked(g, u, v) || (u == a && v == b) || (u == b && v == a)
    ensures r.order == g.order + (if a in g.nodes then [] else [a]) + (if b in g.nodes || b == a then [] else [b])
    ensures r.nodes[a].nbrs == Neighbours(g, a) + (if b in Neighbours(g, a) then [] else [b])
    ensures a != b ==> r.nodes[b].nbrs == Neighbours(g, b) + (if a in Neighbours(g, b) then [] else [a])
    ensures forall c | c in g.nodes && c != a && c != b :: r.nodes[c] == g.nodes[c]
    ensures Valid(g) ==> Valid(r)
  {
    JoinedNodes(g, a, b);
    JoinedOrder(g, a, b);
    JoinedFirstEnd(g, a, b);
    JoinedSecondEnd(g, a, b);
    JoinedOthers(g, a, b);
    JoinedLinks(g, a, b);
    JoinedValid(g, a, b);
    Joined(g, a, b)
  }

  /** Linking both orientations of a pair of nodes keeps a valid graph valid. */
  lemma LinkBothValid(g: Graph, a: Concept, b: Concept)
    requires a in g.nodes && b in g.nodes
    ensures Valid(g) ==> Valid(Link(Link(g, a, b), b, a))
  {
  }

  /** The attribute `add_dot` leaves behind: a list is extended in place, a
      legacy single value `v` is first wrapped as `[v]`, a missing attribute
      becomes `[m]`. */
  function Appended(it: Items, m: Fragment): (r: Items)
    ensures r == List(Fragments(it) + [m])
  {
    match it
    case List(xs) => List(xs + [m])
    case Single(v) => assert [v] + [m] == [v, m]; List([v, m])
    case Missing => assert [] + [m] == [m]; List([m])
  }

  /** `add_dot(c, m)`: appends `m` to the fragments of `c`. An absent node is
      created with `[m]`, a missing attribute becomes `[m]`, and a legacy
      single value `v` becomes `[v, m]`. Edges and every other node are left
      alone. */
  function AddDot(g: Graph, c: Concept, m: Fragment): (r: Graph)
    ensures c in r.nodes
    ensures c in g.nodes ==> r.nodes[c] == Node(List(Fragments(g.nodes[c].items) + [m]), g.nodes[c].nbrs)
    ensures c !in g.nodes ==> r.nodes[c] == Node(List([m]), [])
    ensures r.nodes.Keys == g.nodes.Keys + {c}
    ensures forall d | d in g.nodes && d != c :: r.nodes[d] == g.nodes[d]
    ensures c in g.nodes ==> r.order == g.order
    ensures c !in g.nodes ==> r.order == g.order + [c]
    ensures forall u, v :: Linked(r, u, v) <==> Linked(g, u, v)
    ensures Valid(g) ==> Valid(r)
  {
    AmendedLinks(g, c, m);
    AmendedValid(g, c, m);
    Amended(g, c, m)
  }

  /** The graph `add_dot` leaves behind, before anything is said about it. */
  function Amended(g: Graph, c: Concept, m: Fragment): Graph {
    if c in g.nodes then
      var n := g.nodes[c];
      Graph(g.order, g.nodes[c := n.(items := Appended(n.items, m))])
    else
      Graph(g.order + [c], g.nodes[c := Node(List([m]), [])])
  }

  /** `add_dot` touches no edge. */
  lemma AmendedLinks(g: Graph, c: Concept, m: Fragment)
    ensures forall u, v :: Linked(Amended(g, c, m), u, v) <==> Linked(g, u, v)
  {
  }

  /** `add_dot` keeps the networkx shape. */
  lemma AmendedValid(g: Graph, c: Concept, m: Fragment)
    ensures Valid(g) ==> Valid(Amended(g, c, m))
  {
  }

  /** `get_dot(c)`: the concept paired with its attribute when it is a node,
      None otherwise. */
  function GetDot(g: Graph, c: Concept): (r: Option<(Concept, Items)>)
    ensures r.Some? <==> c in g.nodes
    ensures r.Some? ==> r.value.0 == c && r.value.1 == g.nodes[c].items
  {
    if c in g.nodes then Some((c, g.nodes[c].items)) else None
  }

  /** The `dots` property: `get_dot` of every node, in node order. */
  function Dots(g: Graph): (r: seq<Option<(Concept, Items)>>)
    ensures |r| == |g.order|
    ensures Valid(g) ==> forall i | 0 <= i < |r| :: r[i] == Some((g.order[i], g.nodes[g.order[i]].items))
  {
    seq(|g.order|, i requires 0 <= i < |g.order| => GetDot(g, g.order[i]))
  }

  /** The `memory_items` attribute of a concept, `Missing` for a concept
      that is not a node. */
  function ItemsOf(g: Graph, c: Concept): Items {
    if c in g.nodes then g.nodes[c].items else Missing
  }

  /** The fragments `get_related_item` takes from one concept: those of its
      node, nothing when it is not a node (the `if node_data:` guard). */
  function Held(g: Graph, n: Concept): seq<Fragment> {
    Fragments(ItemsOf(g, n))
  }

  /** The second-layer loop: after visiting the given concepts in turn, each
      visit extending the list by that concept's fragments. */
  function Gather(g: Graph, ns: seq<Concept>): seq<Fragment>
  {
    if |ns| == 0 then []
    else Gather(g, ns[..|ns| - 1]) + Held(g, ns[|ns| - 1])
  }

  /** Reference definition: the concatenation of every listed concept's
      fragments, in list order. */
  function Concatenated(g: Graph, ns: seq<Concept>): seq<Fragment>
  {
    if |ns| == 0 then [] else Held(g, ns[0]) + Concatenated(g, ns[1..])
  }

  /** The loop yields exactly the in-order concatenation, so a fragment held
      by several listed concepts appears once per concept. */
  lemma {:induction false} GatherConcatenates(g: Graph, ns: seq<Concept>)
    ensures Gather(g, ns) == Concatenated(g, ns)
  {
    if |ns| > 0 {
      GatherConcatenates(g, ns[1..]);
      GatherAppend(g, [ns[0]], ns[1..]);
      assert [ns[0]] + ns[1..] == ns;
      assert [ns[0]][..0] == [];
    }
  }

  /** Visiting a single concept yields exactly its fragments. */
  lemma GatherOne(g: Graph, n: Concept)
    ensures Gather(g, [n]) == Held(g, n)
  {
    assert [n][..0] == [];
  }

  /** `get_related_item(topic, depth)`: the topic's own fragments, and, only
      when `depth >= 2`, the fragments of every neighbour in neighbour order. */
  function Related(g: Graph, topic: Concept, depth: int): (r: (seq<Fragment>, seq<Fragment>))
    ensures topic !in g.nodes ==> r == ([], [])
    ensures topic in g.nodes ==> r.0 == Fragments(g.nodes[topic].items)
    ensures depth < 2 ==> r.1 == []
    ensures depth >= 2 && topic in g.nodes ==> r.1 == Concatenated(g, g.nodes[topic].nbrs)
    ensures forall x :: x in r.1 <==>
      && depth >= 2 && topic in g.nodes
      && exists n :: n in g.nodes[topic].nbrs && n in g.nodes && x in Fragments(g.nodes[n].items)
  {
    if topic !in g.nodes then ([], [])
    else
      var first := Fragments(g.nodes[topic].items);
      var second := if depth >= 2 then Gather(g, g.nodes[topic].nbrs) else [];
      GatherMembers(g, g.nodes[topic].nbrs);
      GatherConcatenates(g, g.nodes[topic].nbrs);
      (first, second)
  }

  /** A fragment is gathered exactly when some listed concept that is a node
      holds it. */
  lemma {:induction false} GatherMembers(g: Graph, ns: seq<Concept>)
    ensures forall x :: x in Gather(g, ns) <==> exists n :: n in ns && n in g.nodes && x in Fragments(g.nodes[n].items)
  {
    if |ns| > 0 {
      var front := ns[..|ns| - 1];
      var last := ns[|ns| - 1];
      GatherMembers(g, front);
      assert ns == front + [last];
      forall x | x in Gather(g, ns)
        ensures exists n :: n in ns && n in g.nodes && x in Fragments(g.nodes[n].items)
      {
        if x in Gather(g, front) {
          var n :| n in front && n in g.nodes && x in Fragments(g.nodes[n].items);
          assert n in ns;
        } else {
          assert last in ns;
        }
      }
      forall x | exists n :: n in ns && n in g.nodes && x in Fragments(g.nodes[n].items)
        ensures x in Gather(g, ns)
      {
        var n :| n in ns && n in g.nodes && x in Fragments(g.nodes[n].items);
        if n != last {
          assert n in front;
        }
      }
    }
  }

  /** The second layer follows neighbour order: gathering two runs of
      concepts yields the first run's fragments followed by the second's. */
  lemma {:induction false} GatherAppend(g: Graph, xs: seq<Concept>, ys: seq<Concept>)
    ensures Gather(g, xs + ys) == Gather(g, xs) + Gather(g, ys)
    decreases |ys|
  {
    if |ys| > 0 {
      var front := ys[..|ys| - 1];
      assert (xs + ys)[..|xs + ys| - 1] == xs + front;
      GatherAppend(g, xs, front);
    } else {
      assert xs + ys == xs;
    }
  }

  /** Successive `add_dot` calls accumulate fragments in call order. */
  lemma AddDotAccumulates(g: Graph, c: Concept, f1: Fragment, f2: Fragment)
    ensures c !in g.nodes ==> AddDot(AddDot(g, c, f1), c, f2).nodes[c].items == List([f1, f2])
    ensures c in g.nodes ==>
      AddDot(AddDot(g, c, f1), c, f2).nodes[c].items == List(Fragments(g.nodes[c].items) + [f1, f2])
  {
    var g1 := AddDot(g, c, f1);
    if c in g.nodes {
      assert Fragments(g1.nodes[c].items) + [f2] == Fragments(g.nodes[c].items) + [f1, f2];
    }
  }

  /** Connecting the same pair again, in either orientation, changes nothing. */
  lemma ConnectDotIdempotent(g: Graph, a: Concept, b: Concept)
    ensures ConnectDot(ConnectDot(g, a, b), a, b) == ConnectDot(g, a, b)
    ensures ConnectDot(ConnectDot(g, a, b), b, a) == ConnectDot(g, a, b)
  {
  }

  /** Depth gating: a topic with a single neighbour recalls only its own
      fragments at depth 1, and adds the neighbour's at depth 2. */
  lemma DepthGating(g: Graph, t: Concept, n: Concept)
    requires t in g.nodes && n in g.nodes && g.nodes[t].nbrs == [n]
    ensures Related(g, t, 1) == (Fragments(g.nodes[t].items), [])
    ensures Related(g, t, 2) == (Fragments(g.nodes[t].items), Fragments(g.nodes[n].items))
  {
    assert [n][..0] == [];
    assert Gather(g, [n]) == Fragments(g.nodes[n].items);
    assert Related(g, t, 2).1 == Gather(g, [n]);
  }

  /** Connecting two distinct new concepts makes each the other's only
      neighbour, with no attribute yet. */
  lemma ConnectDotFresh(g: Graph, a: Concept, b: Concept)
    requires a != b && a !in g.nodes && b !in g.nodes
    ensures ConnectDot(g, a, b).nodes[a] == Node(Missing, [b])
    ensures ConnectDot(g, a, b).nodes[b] == Node(Missing, [a])
  {
  }

  /** Two distinct concepts connected and then given one fragment each form
      a graph of exactly those two nodes, each the other's neighbour. */
  lemma ConnectedPair(a: Concept, b: Concept, x: Fragment, y: Fragment)
    requires a != b
    ensures var g := AddDot(AddDot(ConnectDot(Empty, a, b), a, x), b, y);
      && g.nodes.Keys == {a, b}
      && g.nodes[a] == Node(List([x]), [b])
      && g.nodes[b] == Node(List([y]), [a])
  {
    ConnectDotFresh(Empty, a, b);
  }

  /** The recall example: "A" holding "x" linked to "B" holding "y". */
  lemma RecallExample()
    ensures var g := AddDot(AddDot(ConnectDot(Empty, "A", "B"), "A", "x"), "B", "y");
      && Related(g, "A", 1) == (["x"], [])
      && Related(g, "A", 2) == (["x"], ["y"])
      && Related(g, "nonexistent", 2) == ([], [])
  {
    ConnectedPair("A", "B", "x", "y");
    DepthGating(AddDot(AddDot(ConnectDot(Empty, "A", "B"), "A", "x"), "B", "y"), "A", "B");
  }

  /** With a self-loop the topic is its own neighbour, so at depth 2 its own
      fragments reappear in the second layer. */
  lemma SelfLoopRecall(g: Graph, t: Concept, depth: int)
    requires Linked(g, t, t) && depth >= 2
    ensures forall x | x in Fragments(g.nodes[t].items) :: x in Related(g, t, depth).1
  {
  }
}

=== FILE: wrappers.dfy ===
/** The optional value used where the source returns `None` or reads a key
    that may be absent. */
module Wrappers {

  datatype Option<+T> = None | Some(value: T) {

    /** The value held in Some, or the given default for None (`dict.get`). */
    function GetOr(default: T): (r: T)
      ensures Some? ==> r == value
      ensures None? ==> r == default
    {
      match this
      case Some(v) => v
      case None => default
    }
  }
}
